=== FILE: README.md ===
# gym-snake game core in Dafny

This project models the snake game behind the gym-snake environment,
`gym_snake/envs/snake_game/snake_game.py`. It has three classes:

- **`Snake`** is the agent. It holds a head cell, a body queue (oldest segment
  first), the last action and a target length. `step` pushes the old head onto
  the body and moves the head one cell. `expand` either grows the target length
  (food) or pops the oldest segment once the body is longer than the target
  length.
- **`Grid`** is the board. It holds two `(width + 2) x (height + 2)` layers:
  - a static layer: walls (1) around the play space, empty cells (0) and one
    food cell (3);
  - an occupancy layer: the number of snake segments on each cell.

  `step` rebuilds the occupancy layer from the snake. `food` clears the food and
  puts it on a randomly chosen empty cell.
- **`PlayGame`** runs the ticks. It returns the combined grid (static plus
  occupancy) before the tick, the action, the combined grid after it, and a
  reward:
  - the tick ate if some combined cell equals 4 (a segment on the food);
  - on a tick without food, the occupancy count of the oldest body cell is
    zeroed;
  - the snake is then expanded, and after a meal the food moves;
  - the tick died (reward -1) if some combined cell equals 2 (a segment on a
    wall, or two segments on an empty cell) or some occupancy count equals 2.

The model keeps the source's form:

- **Classes and arrays.** `Agent.Snake`, `Board.Grid` and `Game.PlayGame` are
  classes whose methods update their fields in place. The two layers are
  `array2<int>`, and the body is a `seq` the methods reassign.
- **Specification functions.** Each method is proved against a function on
  values: `Spawn`, `Advance` and `Trim` for the snake; `StaticCell`, `Count`
  and `NthInterior` for the grid; `FoodEaten`, `TickOccupancy`, `Dead` and
  `Reward` for a tick. The lemmas in `Game` then prove what a tick does from a
  healthy position, one lemma per kind of move:
  - onto the food: rewarded;
  - onto a wall: fatal;
  - onto another segment: fatal;
  - onto the cell of the oldest segment: unseen;
  - onto a free cell: safe, and the snake stays healthy.

  Two more lemmas show that health holds at the start and after a meal:
  `SpawnIsHealthy` for a new game whose play space is at least 2 x 2, whose
  snake length satisfies 1 <= snake_length <= height / 2, and whose first food
  is off the snake (a snake of length height / 2 + 1, which the constructor
  also accepts, starts with its tail on the wall column 0); and
  `EatingStaysHealthy` for a meal after which the new food lands off the snake.

  "Healthy" means every segment is inside the play space, no two segments share
  a cell, and the food is not under the snake.

The following behaviours of the code are modelled as written:

- The tail cell is zeroed on every tick without food, whether or not the tail
  is popped. On a tick that does not pop (for example the first tick of a new
  snake with a target length of at least 1), the cell still holding the tail
  reads 0 (`UnpoppedTailIsHidden`). On a tick without food, a head moving onto
  the oldest body cell is not seen as a collision; in particular this holds
  from a healthy position (`ChasingTailIsUnseen`). On a food tick the tail
  cell is not zeroed, so the same move is fatal. That tick is possible when
  the food lies under the snake (`ChasingTailOnFoodTickIsFatal`).
- Food is drawn among all cells of the static layer below 1. These include
  cells under the snake and the cell the food has just left. The new food may
  therefore land under the snake or in the same place.
- Death is tested after the food has moved.

Randomness is a parameter. The source draws the food cell with
`np.random.choice` over the indices of the empty cells. The model takes an
index `pick` into those cells, enumerated in row-major order, so every empty
cell can be chosen. After clearing, the empty cells are exactly the interior
cells, and the chosen food is `NthInterior(pick, height)`.

Two consequences of the code are worth stating plainly:

- **Body length.** The body does not settle at `length - 1` segments. `step`
  appends the old head on every tick, and `expand` pops only when the body is
  longer than `length`. So for a target length of at least 0, after the first
  tick without food the body holds exactly `length` segments
  (`BodyLengthAfterTick`). For a negative target length the body is empty
  after every such tick.
- **Where new food lands.** New food can land back on the cell it just left,
  or under the snake.

## Model

| member | source | states |
|---|---|---|
| Geometry.StaticCell | gym_snake/envs/snake_game/snake_game.py:40-51 | the static layer with food differs from the walls-only layer of :40-44 only on the food cell, and there it holds 3 |
| Geometry.FoodCell | gym_snake/envs/snake_game/snake_game.py:49-50 | the game's conversion `row = idx // shape[0]`, `col = idx - shape[0] * row` is division with remainder by the first dimension: row * shape[0] + col == idx and 0 <= col < shape[0] |
| Geometry.Moved | gym_snake/envs/snake_game/snake_game.py:114-121 | the head moves one cell up, down, left or right for actions 0-3 and stays put for any other value |
| Geometry.ExactlyOneFood | gym_snake/envs/snake_game/snake_game.py:40-51 | with the food on an interior cell, the border is all wall and exactly one cell of the static layer holds food |
| Geometry.DistinctCountsAtMostOne | gym_snake/envs/snake_game/snake_game.py:55-57 | a sequence of segments without repeats puts a count of at most 1 on every cell of the occupancy layer |
| Geometry.FoodCellOfFlat | gym_snake/envs/snake_game/snake_game.py:49-50 | when the board's first dimension equals its number of columns, the game's row/column conversion recovers every cell from its flat index |
| Geometry.NonSquareFoodLandsOnWall | gym_snake/envs/snake_game/snake_game.py:77-78 | on a non-square board the conversion divides by the wrong dimension: on a 1 x 2 play space the empty cell (1, 2) is turned into the wall cell (2, 0) |
| Geometry.NthInteriorRoundTrip | gym_snake/envs/snake_game/snake_game.py:75-76 | the row-major enumeration of the empty cells of a cleared board is a bijection between 0 .. width*height-1 and the interior cells |
| Geometry.NthInteriorIsInterior | gym_snake/envs/snake_game/snake_game.py:75-76 | each index below width*height names an interior cell, and that cell's position in the enumeration is the index |
| Agent.Spawn | gym_snake/envs/snake_game/snake_game.py:102-108 | a new snake has its head at the start, faces UP, has the given target length and max(length-1, 0) body segments trailing left of the head, oldest first |
| Agent.SpawnHasNoOverlap | gym_snake/envs/snake_game/snake_game.py:106-107 | no cell holds two segments of a new snake |
| Agent.Advance | gym_snake/envs/snake_game/snake_game.py:110-123 | a move appends the old head to the body, moves the head by the action and records it as the direction; the multiset of segments gains exactly the new head |
| Agent.Trim | gym_snake/envs/snake_game/snake_game.py:125-131 | on food the target length grows by one and the body is kept; otherwise the oldest segment is dropped exactly when the body is longer than the target length; the result's body is always a suffix of the input's |
| Agent.TrimKeepsSegments | gym_snake/envs/snake_game/snake_game.py:125-131 | expanding never adds a cell: every segment afterwards was a segment before |
| Agent.BodyLengthAfterTick | gym_snake/envs/snake_game/snake_game.py:110-131 | a step followed by expand keeps the body between length-1 and length segments; without food it is exactly length; with food both body and length grow by one |
| Agent.FirstTickKeepsTail | gym_snake/envs/snake_game/snake_game.py:102-131 | for a target length of at least 1, a new snake's first tick never pops: its body becomes the old body plus the start cell |
| Agent.Snake.constructor | gym_snake/envs/snake_game/snake_game.py:102-108 | the fields of a new snake are Spawn(start, length) |
| Agent.Snake.Step | gym_snake/envs/snake_game/snake_game.py:110-123 | the new fields are Advance of the old ones |
| Agent.Snake.Expand | gym_snake/envs/snake_game/snake_game.py:125-131 | the new fields are Trim of the old ones |
| Board.Walled | gym_snake/envs/snake_game/snake_game.py:40-44 | a fresh (width+2) x (height+2) layer that is 1 on the border and 0 inside |
| Board.Render | gym_snake/envs/snake_game/snake_game.py:65-68 | a fresh occupancy layer whose every cell holds the number of the snake's segments (body and head) on it |
| Board.Grid.constructor | gym_snake/envs/snake_game/snake_game.py:31-57 | the static layer is walls, empty inside, with food on the pick-th empty cell; the occupancy layer counts the snake's segments |
| Board.Grid.Step | gym_snake/envs/snake_game/snake_game.py:59-68 | the occupancy layer is rebuilt to count the snake's current segments; the static layer is untouched |
| Board.Grid.Food | gym_snake/envs/snake_game/snake_game.py:70-79 | the food moves to the pick-th empty cell of the cleared board; the static layer is again walls plus that one food cell; the occupancy layer is untouched |
| Board.Grid.ClearFood | gym_snake/envs/snake_game/snake_game.py:72 | every cell holding 3 becomes 0 and every other cell keeps its value, leaving walls only |
| Board.Grid.Candidates | gym_snake/envs/snake_game/snake_game.py:75-76 | on a cleared board the flat indices of the cells below 1 are exactly the interior cells' indices, width*height of them, in row-major order |
| Board.Grid.PlaceFood | gym_snake/envs/snake_game/snake_game.py:75-79 | the chosen index, converted back to a cell, puts the single food on the pick-th interior cell |
| Game.FoodEaten | gym_snake/envs/snake_game/snake_game.py:154 | the food test, some cell of static plus occupancy equal to 4: it fires whenever exactly one segment lies on an interior food cell, and only when some segment lies somewhere on the grid |
| Game.TickOccupancy | gym_snake/envs/snake_game/snake_game.py:162-163 | the occupancy a tick leaves at a cell: between 0 and the number of segments there, and different from that number only at the oldest body cell on a tick without food |
| Game.Dead | gym_snake/envs/snake_game/snake_game.py:170-171 | the death test, some combined cell equal to 2 or some occupancy equal to 2: it can fire only where the tick's occupancy layer holds a segment |
| Game.Reward | gym_snake/envs/snake_game/snake_game.py:152-172 | the reward is -1 exactly on death, 1 exactly on food without death, and 0 otherwise |
| Game.CountAfterAdvance | gym_snake/envs/snake_game/snake_game.py:149-150 | after a move the occupancy of a cell rises by one on the new head's cell and is unchanged elsewhere |
| Game.HeadOnFoodEats | gym_snake/envs/snake_game/snake_game.py:154 | from a healthy position, a head that moves onto the food makes the food test fire |
| Game.EatingNeedsHeadOnFood | gym_snake/envs/snake_game/snake_game.py:154 | from a healthy position, the food test fires only if the head moved onto the food |
| Game.AteIffHeadOnFood | gym_snake/envs/snake_game/snake_game.py:154 | from a healthy position the food test fires exactly when the head moves onto the food |
| Game.WallHitIsFatal | gym_snake/envs/snake_game/snake_game.py:170-172 | from a healthy position, a head that moves onto a wall finds no food and the death test fires |
| Game.SelfCollisionIsFatal | gym_snake/envs/snake_game/snake_game.py:170-172 | from a healthy position, a head that moves onto its own segment (other than the oldest body cell) finds no food and the death test fires |
| Game.ChasingTailIsUnseen | gym_snake/envs/snake_game/snake_game.py:162-172 | from a healthy position, a head that moves onto the oldest body cell is not detected: that cell is zeroed, so neither death test fires |
| Game.ChasingTailOnFoodTickIsFatal | gym_snake/envs/snake_game/snake_game.py:154-172 | on a concrete 4 x 4 board with the food under a middle segment, a head moving onto the oldest body cell eats, the tail cell is not zeroed, and the death test fires |
| Game.EatingIsRewarded | gym_snake/envs/snake_game/snake_game.py:154-172 | from a healthy position, moving onto the food fires the food test and not the death test, wherever the new food lands inside |
| Game.PlainMoveIsSafe | gym_snake/envs/snake_game/snake_game.py:152-172 | from a healthy position, moving onto a free interior cell fires neither the food test nor the death test |
| Game.PlainMoveStaysHealthy | gym_snake/envs/snake_game/snake_game.py:149-165 | a plain move onto a free interior cell keeps the position healthy, popped tail or not |
| Game.AdvanceOntoFreeCell | gym_snake/envs/snake_game/snake_game.py:112-121 | a snake without two segments on one cell keeps that property when the head moves onto a cell no segment holds |
| Game.TrimLowersCounts | gym_snake/envs/snake_game/snake_game.py:125-131 | expanding never raises the number of segments on any cell |
| Game.SpawnIsHealthy | gym_snake/envs/snake_game/snake_game.py:142-144 | a snake spawned at the centre of a play space of at least 2 x 2, with 1 <= length <= height/2 and the food off it, is healthy |
| Game.EatingStaysHealthy | gym_snake/envs/snake_game/snake_game.py:147-168 | a meal from a healthy position keeps the position healthy when the new food lands off the snake |
| Game.OccupancyAfterTick | gym_snake/envs/snake_game/snake_game.py:162-165 | after a food tick the occupancy layer counts the snake exactly; otherwise the old tail cell reads 0 and every other cell counts the snake, exactly so when the popped tail sat alone on its cell |
| Game.UnpoppedTailIsHidden | gym_snake/envs/snake_game/snake_game.py:162-165 | on a tick without food that does not pop, the old tail cell reads 0 although a segment still lies on it |
| Game.AnyCellEquals | gym_snake/envs/snake_game/snake_game.py:154 | the scan answers true exactly when some cell of the grid equals the value, as `(grid == v).sum()` is used |
| Game.PlayGame.constructor | gym_snake/envs/snake_game/snake_game.py:142-144 | a new game holds a spawned snake centred at (width/2, height/2), a valid grid with food on the pick-th empty cell, and an occupancy layer counting the snake |
| Game.PlayGame.CurrentState | gym_snake/envs/snake_game/snake_game.py:178-179 | the combined grid is, cell by cell, the static layer plus the occupancy layer |
| Game.PlayGame.FoodFound | gym_snake/envs/snake_game/snake_game.py:154 | the food test on the current layers is FoodEaten of the counted segments |
| Game.PlayGame.DeathFound | gym_snake/envs/snake_game/snake_game.py:170-171 | the death test on the current layers is Dead of the tick |
| Game.PlayGame.Move | gym_snake/envs/snake_game/snake_game.py:149-150 | the snake advances and the occupancy layer counts its new segments; the static layer and food stay |
| Game.PlayGame.FreeTail | gym_snake/envs/snake_game/snake_game.py:162-163 | the oldest body cell's count becomes 0, and every other cell keeps its count |
| Game.PlayGame.Shrink | gym_snake/envs/snake_game/snake_game.py:165 | the snake is trimmed and stays on the grid |
| Game.PlayGame.Settle | gym_snake/envs/snake_game/snake_game.py:162-168 | the snake becomes Trim of the moved snake; the food moves to the pick-th empty cell exactly on a food tick; the occupancy layer is TickOccupancy |
| Game.PlayGame.Step | gym_snake/envs/snake_game/snake_game.py:147-176 | one tick returns the combined grid before, the action, the combined grid after and Reward(ate, Dead(...)), where ate is FoodEaten after the move; it leaves the snake at Trim(Advance(old, action), ate), the food moved exactly when eaten, and the occupancy at TickOccupancy |

## Left out

- `PlayGame.render` (matplotlib drawing) and the notebook imports are not modelled: they only display the grid.
- `gym_snake/envs/snake_env.py`, the gym adapter that calls the game, is not part of this model.
- The random number generator is replaced by the `pick` parameter. The order `np.argsort` gives to equal values is unspecified, so the model enumerates the empty cells in row-major order. The set that can be drawn from is the same.
- The layers hold `int` where numpy stores floats. Every value is a small integer, so nothing is lost.
- Board.Grid.constructor: requires a square board (`width == height`). The code converts flat indices with `board.shape[0]` in both places, which is right only when the number of rows equals the number of columns. `NonSquareFoodLandsOnWall` shows the wrong cell that a non-square board gets.
- Game.PlayGame.constructor: requires `snake_length <= height / 2 + 1`, so that the starting body lies on the grid. A longer snake would index with negative columns, which numpy wraps around. It also requires `width == height`, for the reason on the Board.Grid.constructor line, and `width >= 1`: at width 0 there is no empty cell, and `np.random.choice` on the empty candidate list raises ValueError. That error path is not modelled.
- Game.PlayGame.Step: requires the moved head to stay on the grid (rows and columns 0 .. width+1 / height+1). A head already on a wall that moves outward would reach index -1, which numpy wraps around, or index width+2, which numpy rejects with an error. The model leaves both out.
- Agent.Snake.Expand, Agent.Trim and Agent.TrimKeepsSegments: require a non-empty body or a non-negative target length. Otherwise `popleft` on an empty deque raises, and that error path is not modelled. A tick always pushes the old head first, so the body is never empty when a tick calls `expand`.
- Default arguments are not modelled: `PlayGame(width=40, height=40, snake_length=3)`, `Snake(..., length=3)` and `expand(food=False)` take every argument explicitly in the model.

=== FILE: agent.dfy ===
/** The snake agent: its head, its body (oldest segment first), the last
    action applied and the target length. The class mutates these fields in
    place; the functions on SnakeState say what each mutation computes. */
module Agent {
  import opened Geometry

  /** The value of a snake's fields at one moment. */
  datatype SnakeState = SnakeState(head: Cell, body: seq<Cell>, direction: int, length: int)

  /** All cells the snake covers: the body, then the head. */
  function Segments(s: SnakeState): seq<Cell>
  {
    s.body + [s.head]
  }

  /** A fresh snake: head at `start`, facing UP, and a horizontal body of
      length - 1 segments trailing to the left of the head, oldest first. */
  function Spawn(start: Cell, length: int): (s: SnakeState)
    ensures s.head == start && s.direction == UP && s.length == length
    ensures |s.body| == if length > 1 then length - 1 else 0
    ensures forall k :: 0 <= k < |s.body| ==> s.body[k] == (start.0, start.1 - (|s.body| - k))
  {
    var n := if length > 1 then length - 1 else 0;
    SnakeState(start, seq(n, k => (start.0, start.1 - (n - k))), UP, length)
  }

  /** A spawned snake never folds onto itself: no cell holds two of its segments. */
  lemma SpawnHasNoOverlap(start: Cell, length: int)
    ensures forall p :: Count(Segments(Spawn(start, length)), p) <= 1
  {
    var segs := Segments(Spawn(start, length));
    forall i, j | 0 <= i < j < |segs| ensures segs[i] != segs[j] {
      assert segs[i].1 < segs[j].1;
    }
    DistinctCountsAtMostOne(segs);
  }

  /** One move: the old head becomes the newest body segment and the head
      moves by the action's unit vector. */
  function Advance(s: SnakeState, action: int): (t: SnakeState)
    ensures |t.body| == |s.body| + 1 && t.body[..|s.body|] == s.body && t.body[|s.body|] == s.head
    ensures t.head == Moved(s.head, action) && t.direction == action && t.length == s.length
    ensures multiset(Segments(t)) == multiset(Segments(s)) + multiset{t.head}
  {
    SnakeState(Moved(s.head, action), s.body + [s.head], action, s.length)
  }

  /** The expand step: on food the target length grows and the body is kept;
      otherwise the oldest segment is dropped exactly when the body is longer
      than the target length. */
  function Trim(s: SnakeState, food: bool): (t: SnakeState)
    requires s.body != [] || s.length >= 0
    ensures t.head == s.head && t.direction == s.direction
    ensures food ==> t.length == s.length + 1 && t.body == s.body
    ensures !food ==> t.length == s.length
    ensures !food ==> |t.body| == (if |s.body| > s.length then |s.body| - 1 else |s.body|)
    ensures t.body == s.body[|s.body| - |t.body|..]
  {
    if food then s.(length := s.length + 1)
    else if |s.body| > s.length then s.(body := s.body[1..])
    else s
  }

  /** Whatever the tick, the cells the snake covers afterwards are among the
      cells it covered after moving: trimming only removes the oldest one. */
  lemma TrimKeepsSegments(s: SnakeState, food: bool)
    requires s.body != [] || s.length >= 0
    ensures forall q :: q in Segments(Trim(s, food)) ==> q in Segments(s)
  {
  }

  /** A tick (Advance then Trim) keeps the body between length - 1 and
      length segments; a tick without food leaves exactly length segments,
      and a tick with food adds one segment and one unit of length. */
  lemma BodyLengthAfterTick(s: SnakeState, action: int, food: bool)
    requires s.length - 1 <= |s.body| <= s.length
    ensures var t := Trim(Advance(s, action), food);
      && t.length - 1 <= |t.body| <= t.length
      && (!food ==> |t.body| == t.length)
      && (food ==> |t.body| == |s.body| + 1 && t.length == s.length + 1)
  {
  }

  /** The first tick of a fresh snake never drops a segment: the body starts
      one short of the target length and is only trimmed once it exceeds it. */
  lemma FirstTickKeepsTail(start: Cell, length: int, action: int, food: bool)
    requires length >= 1
    ensures var s := Spawn(start, length);
      Trim(Advance(s, action), food).body == s.body + [start]
  {
  }

  class Snake {
    var head: Cell
    var body: seq<Cell>
    var direction: int
    var length: int

    ghost function State(): SnakeState
      reads this
    {
      SnakeState(head, body, direction, length)
    }

    constructor (start: Cell, length: int)
      ensures State() == Spawn(start, length)
    {
      direction := UP;
      head := start;
      var b: seq<Cell> := [];
      var i := length - 1;
      while i > 0
        invariant i == length - 1 || 0 <= i < length - 1
        invariant |b| == length - 1 - i
        invariant forall k :: 0 <= k < |b| ==> b[k] == (start.0, start.1 - (length - 1 - k))
      {
        b := b + [(start.0, start.1 - i)];
        i := i - 1;
      }
      body := b;
      this.length := length;
    }

    /** Moves the head one cell in the direction of `action`, pushing the
        old head onto the body. */
    method Step(action: int)
      modifies this
      ensures State() == Advance(old(State()), action)
    {
      body := body + [head];
      if action == UP {
        head := (head.0 - 1, head.1);
      } else if action == DOWN {
        head := (head.0 + 1, head.1);
      } else if action == LEFT {
        head := (head.0, head.1 - 1);
      } else if action == RIGHT {
        head := (head.0, head.1 + 1);
      }
      direction := action;
    }

    /** Grows the target length on food; otherwise drops the oldest segment
        when the body has outgrown the target length. */
    method Expand(food: bool)
      requires body != [] || length >= 0
      modifies this
      ensures State() == Trim(old(State()), food)
    {
      if food {
        length := length + 1;
      } else if |body| > length {
        body := body[1..];
      }
    }
  }
}

=== FILE: board.dfy ===
/** The grid the game is played on: a static layer (walls and the one food
    cell) and an occupancy layer counting snake segments per cell, both
    (width + 2) x (height + 2) integer matrices updated in place. */
module Board {
  import opened Geometry
  import opened Agent

  /** A layer as a value, row by row: what a numpy comparison such as
      `layer == 2` scans. */
  function Layer(a: array2<int>): (g: seq<seq<int>>)
    reads a
    ensures |g| == a.Length0
    ensures forall r :: 0 <= r < a.Length0 ==> |g[r]| == a.Length1
    ensures forall r, c :: 0 <= r < a.Length0 && 0 <= c < a.Length1 ==> g[r][c] == a[r, c]
  {
    seq(a.Length0, r requires 0 <= r < a.Length0 reads a =>
      seq(a.Length1, c requires 0 <= c < a.Length1 reads a => a[r, c]))
  }

  /** A fresh static layer: zeros with a border of walls. */
  method Walled(width: int, height: int) returns (b: array2<int>)
    requires width >= 0 && height >= 0
    ensures fresh(b) && b.Length0 == width + 2 && b.Length1 == height + 2
    ensures forall r, c :: 0 <= r < b.Length0 && 0 <= c < b.Length1 ==> b[r, c] == WallsOnly(width, height, (r, c))
  {
    b := new int[width + 2, height + 2]((r, c) => EMPTY);
    // the first and the last row
    var c := 0;
    while c < height + 2
      invariant 0 <= c <= height + 2
      invariant forall i, j :: 0 <= i < width + 2 && 0 <= j < height + 2 ==>
        b[i, j] == (if (i == 0 || i == width + 1) && j < c then WALL else EMPTY)
    {
      b[0, c] := WALL;
      b[width + 1, c] := WALL;
      c := c + 1;
    }
    // the first and the last column
    var r := 0;
    while r < width + 2
      invariant 0 <= r <= width + 2
      invariant forall i, j :: 0 <= i < width + 2 && 0 <= j < height + 2 ==>
        b[i, j] == (if i == 0 || i == width + 1 || (i < r && (j == 0 || j == height + 1)) then WALL else EMPTY)
    {
      b[r, 0] := WALL;
      b[r, height + 1] := WALL;
      r := r + 1;
    }
  }

  /** A fresh occupancy layer: one count per segment of the snake, body
      first and then the head. */
  method Render(snake: Snake, width: int, height: int) returns (sb: array2<int>)
    requires width >= 0 && height >= 0
    requires AllInBounds(Segments(snake.State()), width, height)
    ensures fresh(sb) && sb.Length0 == width + 2 && sb.Length1 == height + 2
    ensures forall r, c :: 0 <= r < sb.Length0 && 0 <= c < sb.Length1 ==> sb[r, c] == Count(Segments(snake.State()), (r, c))
  {
    sb := new int[width + 2, height + 2]((r, c) => 0);
    var body := snake.body;
    var i := 0;
    while i < |body|
      invariant 0 <= i <= |body|
      invariant forall r, c :: 0 <= r < width + 2 && 0 <= c < height + 2 ==> sb[r, c] == Count(body[..i], (r, c))
    {
      var p := body[i];
      assert p in Segments(snake.State());
      sb[p.0, p.1] := sb[p.0, p.1] + 1;
      assert body[..i + 1] == body[..i] + [p];
      i := i + 1;
    }
    assert body[..i] == body;
    var h := snake.head;
    assert h in Segments(snake.State());
    sb[h.0, h.1] := sb[h.0, h.1] + 1;
  }

  class Grid {
    const width: int
    const height: int
    var board: array2<int>
    var snakeBoard: array2<int>
    /** Where the food is: the one cell of the static layer holding FOOD. */
    ghost var food: Cell

    /** Square play space, both layers of the grid's size, and distinct. */
    ghost predicate Shaped()
      reads this
    {
      && 1 <= width == height
      && board.Length0 == width + 2 && board.Length1 == height + 2
      && snakeBoard.Length0 == width + 2 && snakeBoard.Length1 == height + 2
      && board != snakeBoard
    }

    /** The static layer right after the food has been cleared. */
    ghost predicate Cleared()
      reads this, board
      requires Shaped()
    {
      forall r, c :: 0 <= r < board.Length0 && 0 <= c < board.Length1 ==> board[r, c] == WallsOnly(width, height, (r, c))
    }

    /** The static layer is walls all round, empty inside, with food on the
        one interior cell `food`. */
    ghost predicate Valid()
      reads this, board
    {
      && Shaped()
      && IsInterior(food, width, height)
      && forall r, c :: 0 <= r < board.Length0 && 0 <= c < board.Length1 ==> board[r, c] == StaticCell(width, height, food, (r, c))
    }

    constructor (width: int, height: int, snake: Snake, pick: nat)
      requires 1 <= width == height
      requires pick < width * height
      requires AllInBounds(Segments(snake.State()), width, height)
      ensures this.width == width && this.height == height
      ensures Valid() && fresh(board) && fresh(snakeBoard)
      ensures food == NthInterior(pick, height)
      ensures forall r, c :: 0 <= r < width + 2 && 0 <= c < height + 2 ==> snakeBoard[r, c] == Count(Segments(snake.State()), (r, c))
    {
      this.width := width;
      this.height := height;
      var b := Walled(width, height);
      var sb := Render(snake, width, height);
      board, snakeBoard := b, sb;
      food := (1, 1);
      new;
      PlaceFood(pick);
    }

    /** Rebuilds the occupancy layer from the snake's current body and head. */
    method Step(snake: Snake)
      requires Valid()
      requires AllInBounds(Segments(snake.State()), width, height)
      modifies this`snakeBoard
      ensures Valid() && board == old(board) && fresh(snakeBoard)
      ensures forall r, c :: 0 <= r < width + 2 && 0 <= c < height + 2 ==> snakeBoard[r, c] == Count(Segments(snake.State()), (r, c))
    {
      snakeBoard := Render(snake, width, height);
    }

    /** Moves the food: clears every food cell, then puts food on the
        `pick`-th empty cell. Only the static layer changes. */
    method Food(pick: nat)
      requires Valid()
      requires pick < width * height
      modifies board, this`food
      ensures Valid() && unchanged(snakeBoard)
      ensures food == NthInterior(pick, height)
    {
      ClearFood();
      PlaceFood(pick);
    }

    /** Every cell holding food becomes empty; nothing else changes. */
    method ClearFood()
      requires Valid()
      modifies board
      ensures Shaped() && Cleared()
      ensures forall r, c :: 0 <= r < board.Length0 && 0 <= c < board.Length1 ==>
        board[r, c] == if old(board[r, c]) == FOOD then EMPTY else old(board[r, c])
    {
      var r := 0;
      while r < board.Length0
        invariant 0 <= r <= board.Length0
        invariant forall i, j :: 0 <= i < board.Length0 && 0 <= j < board.Length1 ==>
          board[i, j] == if i < r && old(board[i, j]) == FOOD then EMPTY else old(board[i, j])
      {
        var c := 0;
        while c < board.Length1
          invariant 0 <= c <= board.Length1
          invariant forall i, j :: 0 <= i < board.Length0 && 0 <= j < board.Length1 ==>
            board[i, j] == if (i < r || (i == r && j < c)) && old(board[i, j]) == FOOD then EMPTY else old(board[i, j])
        {
          if board[r, c] == FOOD {
            board[r, c] := EMPTY;
          }
          c := c + 1;
        }
        r := r + 1;
      }
    }

    /** The flat indices of the cells holding less than 1 (the empty cells),
        in row-major order. On a cleared layer they are exactly the interior
        cells, the i-th of them being NthInterior(i). */
    method Candidates() returns (cands: seq<int>)
      requires Shaped() && Cleared()
      ensures |cands| == width * height
      ensures forall i :: 0 <= i < |cands| ==> cands[i] == Flat(NthInterior(i, height), board.Length1)
    {
      cands := [];
      var r := 0;
      while r < board.Length0
        invariant 0 <= r <= board.Length0
        invariant |cands| == InteriorBefore(r, 0, width, height)
        invariant forall i :: 0 <= i < |cands| ==> cands[i] == Flat(NthInterior(i, height), board.Length1)
      {
        var c := 0;
        while c < board.Length1
          invariant 0 <= c <= board.Length1
          invariant |cands| == InteriorBefore(r, c, width, height)
          invariant forall i :: 0 <= i < |cands| ==> cands[i] == Flat(NthInterior(i, height), board.Length1)
        {
          if board[r, c] < 1 {
            DivModOf(r - 1, c - 1, height);
            cands := cands + [r * board.Length1 + c];
          }
          c := c + 1;
        }
        r := r + 1;
      }
    }

    /** Draws the food cell: the `pick`-th candidate's flat index is turned
        back into a cell with the game's own formula and marked FOOD. */
    method PlaceFood(pick: nat)
      requires Shaped() && Cleared()
      requires pick < width * height
      modifies board, this`food
      ensures Valid()
      ensures food == NthInterior(pick, height)
    {
      var cands := Candidates();
      var idx := cands[pick];
      NthInteriorIsInterior(pick, width, height);
      FoodCellOfFlat(NthInterior(pick, height), board.Length0);
      var cell := FoodCell(idx, board.Length0);
      board[cell.0, cell.1] := FOOD;
      food := cell;
    }
  }

  /** The number of interior cells before (r, c) in row-major order, for a
      scan that has finished rows 0 .. r-1 and columns 0 .. c-1 of row r. */
  function InteriorBefore(r: int, c: int, width: int, height: int): int
  {
    Clamp(r - 1, width) * height + (if 1 <= r <= width then Clamp(c - 1, height) else 0)
  }

  function Clamp(x: int, hi: int): int
  {
    if x < 0 then 0 else if x > hi then hi else x
  }
}

=== FILE: game.dfy ===
/** One game: a snake on a grid, advanced one tick per call. A tick moves the
    snake, re-renders the occupancy layer, detects food (a combined cell of 4),
    frees the old tail cell on ticks without food, trims or grows the snake,
    relocates the food after a meal and finally detects death (a combined
    cell of 2, or two segments on one cell). */
module Game {
  import opened Geometry
  import opened Agent
  import opened Board

  /** A food tick: some cell of static layer plus occupancy equals 4. */
  predicate FoodEaten(width: int, height: int, food: Cell, segs: seq<Cell>): (b: bool)
    ensures IsInterior(food, width, height) && Count(segs, food) == 1 ==> b
    ensures b ==> exists r, c :: 0 <= r < width + 2 && 0 <= c < height + 2 && Count(segs, (r, c)) >= 1
  {
    assert IsInterior(food, width, height) && Count(segs, food) == 1 ==>
      StaticCell(width, height, food, food) + Count(segs, food) == 4;
    exists r, c :: 0 <= r < width + 2 && 0 <= c < height + 2 &&
      StaticCell(width, height, food, (r, c)) + Count(segs, (r, c)) == 4
  }

  /** The occupancy layer a tick leaves behind, given the snake `s1` right
      after it moved: the counts of its segments, except that on a tick
      without food the cell of the oldest body segment is set to 0. */
  function TickOccupancy(s1: SnakeState, ate: bool, p: Cell): (n: int)
    requires s1.body != []
    ensures 0 <= n <= Count(Segments(s1), p)
    ensures n != Count(Segments(s1), p) ==> !ate && p == s1.body[0]
  {
    if !ate && p == s1.body[0] then 0 else Count(Segments(s1), p)
  }

  /** Death as the tick's end tests it: some combined cell equals 2 (a
      segment on a wall, or two segments on an empty cell), or some
      occupancy count equals 2. */
  predicate Dead(width: int, height: int, food: Cell, s1: SnakeState, ate: bool): (b: bool)
    requires s1.body != []
    ensures b ==> exists r, c :: 0 <= r < width + 2 && 0 <= c < height + 2 && TickOccupancy(s1, ate, (r, c)) >= 1
  {
    exists r, c :: 0 <= r < width + 2 && 0 <= c < height + 2 &&
      (StaticCell(width, height, food, (r, c)) + TickOccupancy(s1, ate, (r, c)) == 2 ||
       TickOccupancy(s1, ate, (r, c)) == 2)
  }

  /** The reward of a tick: -1 on death whatever else happened, otherwise 1
      for food and 0 for a plain move. */
  function Reward(ate: bool, dead: bool): (r: int)
    ensures r == -1 || r == 0 || r == 1
    ensures r == 1 <==> ate && !dead
    ensures r == -1 <==> dead
    ensures r == 0 <==> !ate && !dead
  {
    if dead then -1 else if ate then 1 else 0
  }

  /** A snake in a healthy position: every segment on an interior cell, no
      two segments on one cell, and the food (interior) not under it. */
  ghost predicate Healthy(width: int, height: int, food: Cell, s: SnakeState)
  {
    && IsInterior(food, width, height)
    && (forall q :: q in Segments(s) ==> IsInterior(q, width, height))
    && (forall p :: Count(Segments(s), p) <= 1)
    && Count(Segments(s), food) == 0
  }

  /** Moving adds exactly one segment, on the new head's cell. */
  lemma CountAfterAdvance(s: SnakeState, action: int, p: Cell)
    ensures Count(Segments(Advance(s, action)), p) ==
      Count(Segments(s), p) + (if p == Moved(s.head, action) then 1 else 0)
  {
  }

  /** From a healthy position, the tick detects food exactly when the head
      moves onto the food cell. */
  lemma {:induction false} AteIffHeadOnFood(width: int, height: int, food: Cell, s: SnakeState, action: int)
    requires Healthy(width, height, food, s)
    ensures FoodEaten(width, height, food, Segments(Advance(s, action))) <==> Moved(s.head, action) == food
  {
    if Moved(s.head, action) == food {
      HeadOnFoodEats(width, height, food, s, action);
    }
    if FoodEaten(width, height, food, Segments(Advance(s, action))) {
      EatingNeedsHeadOnFood(width, height, food, s, action);
    }
  }

  /** A head that moves onto the food from a healthy position is the one
      segment on it, so that cell reads 3 + 1. */
  lemma {:induction false} HeadOnFoodEats(width: int, height: int, food: Cell, s: SnakeState, action: int)
    requires Healthy(width, height, food, s)
    requires Moved(s.head, action) == food
    ensures FoodEaten(width, height, food, Segments(Advance(s, action)))
  {
    CountAfterAdvance(s, action, food);
  }

  /** From a healthy position, a combined 4 can only be the food cell with
      the new head on it: no cell holds more than one old segment plus the
      head, and no segment lies on the food. */
  lemma {:induction false} EatingNeedsHeadOnFood(width: int, height: int, food: Cell, s: SnakeState, action: int)
    requires Healthy(width, height, food, s)
    requires FoodEaten(width, height, food, Segments(Advance(s, action)))
    ensures Moved(s.head, action) == food
  {
    var segs1 := Segments(Advance(s, action));
    var r, c :| 0 <= r < width + 2 && 0 <= c < height + 2 &&
      StaticCell(width, height, food, (r, c)) + Count(segs1, (r, c)) == 4;
    var p := (r, c);
    CountAfterAdvance(s, action, p);
    assert Count(Segments(s), p) <= 1;
    assert Count(segs1, p) <= 2;
    assert StaticCell(width, height, food, p) == FOOD;
    assert p == food;
  }

  /** From a healthy position, a head that moves onto a wall finds no food
      and dies. */
  lemma {:induction false} WallHitIsFatal(width: int, height: int, food: Cell, s: SnakeState, action: int)
    requires Healthy(width, height, food, s)
    requires IsWall(Moved(s.head, action), width, height)
    ensures var s1 := Advance(s, action);
      !FoodEaten(width, height, food, Segments(s1)) && Dead(width, height, food, s1, false)
  {
    var s1 := Advance(s, action);
    var h1 := s1.head;
    AteIffHeadOnFood(width, height, food, s, action);
    CountAfterAdvance(s, action, h1);
    assert h1 !in Segments(s);
    assert s1.body[0] in Segments(s);
    assert TickOccupancy(s1, false, h1) == 1;
    assert StaticCell(width, height, food, h1) + TickOccupancy(s1, false, h1) == 2;
  }

  /** From a healthy position, a head that moves onto one of its own segments
      other than the oldest body segment finds no food and dies. */
  lemma {:induction false} SelfCollisionIsFatal(width: int, height: int, food: Cell, s: SnakeState, action: int)
    requires Healthy(width, height, food, s)
    requires Moved(s.head, action) in Segments(s)
    requires Moved(s.head, action) != Advance(s, action).body[0]
    ensures var s1 := Advance(s, action);
      !FoodEaten(width, height, food, Segments(s1)) && Dead(width, height, food, s1, false)
  {
    var s1 := Advance(s, action);
    var h1 := s1.head;
    AteIffHeadOnFood(width, height, food, s, action);
    CountAfterAdvance(s, action, h1);
    assert Count(Segments(s), h1) == 1;
    assert TickOccupancy(s1, false, h1) == 2;
  }

  /** From a healthy position, a head that moves onto the cell of the oldest
      body segment is not seen to die: that cell is zeroed on the occupancy
      layer, so neither death test fires and the tick's reward is 0. */
  lemma {:induction false} ChasingTailIsUnseen(width: int, height: int, food: Cell, s: SnakeState, action: int)
    requires Healthy(width, height, food, s)
    requires Moved(s.head, action) == Advance(s, action).body[0]
    ensures var s1 := Advance(s, action);
      !FoodEaten(width, height, food, Segments(s1)) && !Dead(width, height, food, s1, false)
  {
    var s1 := Advance(s, action);
    var h1 := s1.head;
    assert h1 in Segments(s);
    AteIffHeadOnFood(width, height, food, s, action);
    forall r, c | 0 <= r < width + 2 && 0 <= c < height + 2
      ensures StaticCell(width, height, food, (r, c)) + TickOccupancy(s1, false, (r, c)) != 2
      ensures TickOccupancy(s1, false, (r, c)) != 2
    {
      var p := (r, c);
      CountAfterAdvance(s, action, p);
      if p != h1 {
        assert Count(Segments(s), p) <= 1;
        if !IsInterior(p, width, height) {
          assert p !in Segments(s);
        }
      }
    }
  }

  /** Chasing the tail is seen on a food tick, because the tail cell is then
      not zeroed. That tick can happen when the food lies under the snake:
      on a 4 x 4 play space with body [(1, 1), (1, 2), (2, 2)], head (2, 1)
      and food under the middle segment, UP moves the head onto the oldest
      body cell, the food test fires and so does the death test. */
  lemma ChasingTailOnFoodTickIsFatal()
    ensures var s1 := Advance(SnakeState((2, 1), [(1, 1), (1, 2), (2, 2)], UP, 3), UP);
      && s1.head == s1.body[0]
      && FoodEaten(4, 4, (1, 2), Segments(s1))
      && Dead(4, 4, (3, 3), s1, true)
  {
    var s1 := Advance(SnakeState((2, 1), [(1, 1), (1, 2), (2, 2)], UP, 3), UP);
    assert Segments(s1) == [(1, 1), (1, 2), (2, 2), (2, 1), (1, 1)];
    assert Count(Segments(s1), (1, 2)) == 1;
    assert Count(Segments(s1), (1, 1)) == 2;
    assert TickOccupancy(s1, true, (1, 1)) == 2;
  }

  /** From a healthy position, a head that moves onto the food is rewarded
      whatever interior cell the new food lands on: nothing reads as death. */
  lemma {:induction false} EatingIsRewarded(width: int, height: int, food: Cell, s: SnakeState, action: int, newFood: Cell)
    requires Healthy(width, height, food, s)
    requires Moved(s.head, action) == food
    requires IsInterior(newFood, width, height)
    ensures var s1 := Advance(s, action);
      FoodEaten(width, height, food, Segments(s1)) && !Dead(width, height, newFood, s1, true)
  {
    var s1 := Advance(s, action);
    AteIffHeadOnFood(width, height, food, s, action);
    forall r, c | 0 <= r < width + 2 && 0 <= c < height + 2
      ensures StaticCell(width, height, newFood, (r, c)) + TickOccupancy(s1, true, (r, c)) != 2
      ensures TickOccupancy(s1, true, (r, c)) != 2
    {
      var p := (r, c);
      CountAfterAdvance(s, action, p);
      assert Count(Segments(s), p) <= 1;
      if !IsInterior(p, width, height) {
        assert p !in Segments(s);
      }
    }
  }

  /** From a healthy position, a head that moves onto a free interior cell
      (no segment, no food) neither eats nor dies. */
  lemma {:induction false} PlainMoveIsSafe(width: int, height: int, food: Cell, s: SnakeState, action: int)
    requires Healthy(width, height, food, s)
    requires IsInterior(Moved(s.head, action), width, height)
    requires Moved(s.head, action) !in Segments(s) && Moved(s.head, action) != food
    ensures var s1 := Advance(s, action);
      !FoodEaten(width, height, food, Segments(s1)) && !Dead(width, height, food, s1, false)
  {
    var s1 := Advance(s, action);
    AteIffHeadOnFood(width, height, food, s, action);
    forall r, c | 0 <= r < width + 2 && 0 <= c < height + 2
      ensures StaticCell(width, height, food, (r, c)) + TickOccupancy(s1, false, (r, c)) != 2
      ensures TickOccupancy(s1, false, (r, c)) != 2
    {
      var p := (r, c);
      CountAfterAdvance(s, action, p);
      assert Count(Segments(s), p) <= 1;
      if !IsInterior(p, width, height) {
        assert p !in Segments(s);
      }
    }
  }

  /** A plain move keeps the position healthy, whether or not the tail is
      popped: the snake only gains the free head cell. */
  lemma {:induction false} PlainMoveStaysHealthy(width: int, height: int, food: Cell, s: SnakeState, action: int)
    requires Healthy(width, height, food, s)
    requires IsInterior(Moved(s.head, action), width, height)
    requires Moved(s.head, action) !in Segments(s) && Moved(s.head, action) != food
    ensures Healthy(width, height, food, Trim(Advance(s, action), false))
  {
    var s1 := Advance(s, action);
    AdvanceOntoFreeCell(s, action);
    TrimLowersCounts(s1, false);
    TrimKeepsSegments(s1, false);
    forall q | q in Segments(Trim(s1, false)) ensures IsInterior(q, width, height) {
      assert q in multiset(Segments(s)) + multiset{s1.head};
    }
  }

  /** A snake with no two segments on one cell keeps that property when its
      head moves onto a cell none of its segments holds. */
  lemma {:induction false} AdvanceOntoFreeCell(s: SnakeState, action: int)
    requires forall p :: Count(Segments(s), p) <= 1
    requires Moved(s.head, action) !in Segments(s)
    ensures forall p :: Count(Segments(Advance(s, action)), p) <= 1
  {
    forall p ensures Count(Segments(Advance(s, action)), p) <= 1 {
      CountAfterAdvance(s, action, p);
      if p == Moved(s.head, action) {
        assert p !in multiset(Segments(s));
      }
    }
  }

  /** Expanding never raises the count of any cell. */
  lemma {:induction false} TrimLowersCounts(s: SnakeState, food: bool)
    requires s.body != [] || s.length >= 0
    ensures forall p :: Count(Segments(Trim(s, food)), p) <= Count(Segments(s), p)
  {
    var t := Trim(s, food);
    if !food && |s.body| > s.length {
      assert Segments(s) == [s.body[0]] + Segments(t);
      assert multiset(Segments(s)) == multiset{s.body[0]} + multiset(Segments(t));
    }
  }

  /** A new game's snake, spawned at the centre, is healthy when it fits in
      the play space and the first food is not under it. */
  lemma {:induction false} SpawnIsHealthy(width: int, height: int, length: int, food: Cell)
    requires width >= 2 && height >= 2 && 1 <= length <= height / 2
    requires IsInterior(food, width, height)
    requires food !in Segments(Spawn((width / 2, height / 2), length))
    ensures Healthy(width, height, food, Spawn((width / 2, height / 2), length))
  {
    var s := Spawn((width / 2, height / 2), length);
    SpawnHasNoOverlap((width / 2, height / 2), length);
    forall q | q in Segments(s) ensures IsInterior(q, width, height) {
      if q in s.body {
        var k :| 0 <= k < |s.body| && s.body[k] == q;
      }
    }
  }

  /** A meal keeps the position healthy when the new food lands off the
      snake: the snake only gains the old food cell, which was free. */
  lemma {:induction false} EatingStaysHealthy(width: int, height: int, food: Cell, s: SnakeState, action: int, newFood: Cell)
    requires Healthy(width, height, food, s)
    requires Moved(s.head, action) == food
    requires IsInterior(newFood, width, height)
    requires newFood !in Segments(Trim(Advance(s, action), true))
    ensures Healthy(width, height, newFood, Trim(Advance(s, action), true))
  {
    var s1 := Advance(s, action);
    var t := Trim(s1, true);
    assert Segments(t) == Segments(s1);
    forall p ensures Count(Segments(t), p) <= 1 {
      CountAfterAdvance(s, action, p);
    }
    forall q | q in Segments(t) ensures IsInterior(q, width, height) {
      assert q in multiset(Segments(s)) + multiset{s1.head};
    }
  }

  /** How the occupancy layer left by a tick relates to the snake after the
      tick: on a food tick it counts the snake's segments exactly; otherwise
      it does so everywhere except the old tail cell, which reads 0, and it
      is exact there too when the tail was popped from a cell it held alone. */
  lemma {:induction false} OccupancyAfterTick(s1: SnakeState, ate: bool)
    requires s1.body != []
    ensures var s2 := Trim(s1, ate);
      && (ate ==> forall p :: TickOccupancy(s1, ate, p) == Count(Segments(s2), p))
      && (!ate ==> TickOccupancy(s1, ate, s1.body[0]) == 0)
      && (!ate ==> forall p :: p != s1.body[0] ==> TickOccupancy(s1, ate, p) == Count(Segments(s2), p))
      && (!ate && |s1.body| > s1.length && Count(Segments(s1), s1.body[0]) == 1 ==>
            forall p :: TickOccupancy(s1, ate, p) == Count(Segments(s2), p))
  {
    var s2 := Trim(s1, ate);
    if !ate && |s1.body| > s1.length {
      assert Segments(s1) == [s1.body[0]] + Segments(s2);
      assert multiset(Segments(s1)) == multiset{s1.body[0]} + multiset(Segments(s2));
    }
  }

  /** The tail quirk: on a tick without food that does not pop (the body is
      not longer than the target length, as on a fresh snake's first tick),
      the old tail cell reads 0 although a segment of the snake is still on it. */
  lemma UnpoppedTailIsHidden(s1: SnakeState)
    requires s1.body != [] && |s1.body| <= s1.length
    ensures TickOccupancy(s1, false, s1.body[0]) == 0
    ensures Count(Segments(Trim(s1, false)), s1.body[0]) >= 1
  {
  }

  /** Whether any cell of `g` equals `v`: the test `(g == v).sum()` is used for. */
  method AnyCellEquals(g: seq<seq<int>>, v: int) returns (found: bool)
    ensures found <==> exists r, c :: 0 <= r < |g| && 0 <= c < |g[r]| && g[r][c] == v
  {
    var r := 0;
    while r < |g|
      invariant 0 <= r <= |g|
      invariant forall i, j :: 0 <= i < r && 0 <= j < |g[i]| ==> g[i][j] != v
    {
      var c := 0;
      while c < |g[r]|
        invariant 0 <= c <= |g[r]|
        invariant forall j :: 0 <= j < c ==> g[r][j] != v
      {
        if g[r][c] == v {
          return true;
        }
        c := c + 1;
      }
      r := r + 1;
    }
    return false;
  }

  class PlayGame {
    const snake: Snake
    const grid: Grid

    /** The grid is well formed and every segment of the snake is on it. */
    ghost predicate Valid()
      reads this, snake, grid, grid.board
    {
      grid.Valid() && AllInBounds(Segments(snake.State()), grid.width, grid.height)
    }

    constructor (width: int, height: int, snakeLength: int, pick: nat)
      requires 1 <= width == height
      requires pick < width * height
      requires snakeLength <= height / 2 + 1
      ensures Valid()
      ensures snake.State() == Spawn((width / 2, height / 2), snakeLength)
      ensures grid.width == width && grid.height == height
      ensures grid.food == NthInterior(pick, height)
      ensures forall r, c :: 0 <= r < width + 2 && 0 <= c < height + 2 ==>
        grid.snakeBoard[r, c] == Count(Segments(snake.State()), (r, c))
      ensures fresh(snake) && fresh(grid) && fresh(grid.board) && fresh(grid.snakeBoard)
    {
      var s := new Snake((width / 2, height / 2), snakeLength);
      forall q | q in Segments(s.State()) ensures InBounds(q, width, height) {
        if q in s.body {
          var k :| 0 <= k < |s.body| && s.body[k] == q;
        }
      }
      var g := new Grid(width, height, s, pick);
      snake, grid := s, g;
    }

    /** The combined grid, static layer plus occupancy layer; changes nothing. */
    function CurrentState(): (g: seq<seq<int>>)
      reads this, snake, grid, grid.board, grid.snakeBoard
      requires Valid()
      ensures |g| == grid.width + 2
      ensures forall r :: 0 <= r < |g| ==> |g[r]| == grid.height + 2
      ensures forall r, c :: 0 <= r < grid.width + 2 && 0 <= c < grid.height + 2 ==>
        g[r][c] == grid.board[r, c] + grid.snakeBoard[r, c]
    {
      var b, sb := grid.board, grid.snakeBoard;
      seq(b.Length0, r requires 0 <= r < b.Length0 reads b, sb =>
        seq(b.Length1, c requires 0 <= c < b.Length1 reads b, sb => b[r, c] + sb[r, c]))
    }

    /** Whether some combined cell equals 4, for an occupancy layer that
        counts the segments `segs`: exactly the food test of the tick. */
    method FoodFound(ghost segs: seq<Cell>) returns (found: bool)
      requires Valid()
      requires forall r, c :: 0 <= r < grid.width + 2 && 0 <= c < grid.height + 2 ==>
        grid.snakeBoard[r, c] == Count(segs, (r, c))
      ensures found == FoodEaten(grid.width, grid.height, grid.food, segs)
    {
      var g := CurrentState();
      found := AnyCellEquals(g, 4);
      forall r, c | 0 <= r < grid.width + 2 && 0 <= c < grid.height + 2
        ensures g[r][c] == StaticCell(grid.width, grid.height, grid.food, (r, c)) + Count(segs, (r, c))
      {
      }
    }

    /** Whether some combined cell or some occupancy count equals 2, for an
        occupancy layer as a tick leaves it: exactly the death test. */
    method DeathFound(ghost s1: SnakeState, ghost ate: bool) returns (dead: bool)
      requires Valid() && s1.body != []
      requires forall r, c :: 0 <= r < grid.width + 2 && 0 <= c < grid.height + 2 ==>
        grid.snakeBoard[r, c] == TickOccupancy(s1, ate, (r, c))
      ensures Valid()
      ensures dead == Dead(grid.width, grid.height, grid.food, s1, ate)
    {
      var g := CurrentState();
      var o := Layer(grid.snakeBoard);
      dead := AnyCellEquals(g, 2);
      if !dead {
        dead := AnyCellEquals(o, 2);
      }
      forall r, c | 0 <= r < grid.width + 2 && 0 <= c < grid.height + 2
        ensures g[r][c] == StaticCell(grid.width, grid.height, grid.food, (r, c)) + TickOccupancy(s1, ate, (r, c))
        ensures o[r][c] == TickOccupancy(s1, ate, (r, c))
      {
      }
    }

    /** The first half of a tick: the snake moves and the occupancy layer is
        rebuilt from it. */
    method Move(action: int)
      requires Valid()
      requires InBounds(Moved(snake.head, action), grid.width, grid.height)
      modifies snake, grid`snakeBoard
      ensures Valid() && grid.food == old(grid.food) && grid.board == old(grid.board)
      ensures snake.State() == Advance(old(snake.State()), action)
      ensures fresh(grid.snakeBoard)
      ensures forall r, c :: 0 <= r < grid.width + 2 && 0 <= c < grid.height + 2 ==>
        grid.snakeBoard[r, c] == Count(Segments(snake.State()), (r, c))
    {
      ghost var s0 := snake.State();
      snake.Step(action);
      ghost var s1 := snake.State();
      forall q | q in Segments(s1) ensures InBounds(q, grid.width, grid.height) {
        assert q in multiset(Segments(s0)) + multiset{s1.head};
      }
      grid.Step(snake);
    }

    /** Zeroes the occupancy of the oldest body segment's cell, as a tick
        without food does before the snake is trimmed. */
    method FreeTail()
      requires Valid() && snake.body != []
      requires forall r, c :: 0 <= r < grid.width + 2 && 0 <= c < grid.height + 2 ==>
        grid.snakeBoard[r, c] == Count(Segments(snake.State()), (r, c))
      modifies grid.snakeBoard
      ensures forall r, c :: 0 <= r < grid.width + 2 && 0 <= c < grid.height + 2 ==>
        grid.snakeBoard[r, c] == TickOccupancy(snake.State(), false, (r, c))
    {
      var tail := snake.body[0];
      assert tail in Segments(snake.State());
      grid.snakeBoard[tail.0, tail.1] := 0;
    }

    /** The expand step of the snake, which keeps it on the grid. */
    method Shrink(food: bool)
      requires Valid() && snake.body != []
      modifies snake
      ensures Valid() && snake.State() == Trim(old(snake.State()), food)
    {
      ghost var s := snake.State();
      snake.Expand(food);
      TrimKeepsSegments(s, food);
    }

    /** The second half of a tick, once the food test has run: without food
        the tail cell's count is zeroed; then the snake is trimmed; with food
        the food moves to the `pick`-th empty cell. */
    method Settle(food: bool, pick: nat)
      requires Valid() && snake.body != []
      requires pick < grid.width * grid.height
      requires forall r, c :: 0 <= r < grid.width + 2 && 0 <= c < grid.height + 2 ==>
        grid.snakeBoard[r, c] == Count(Segments(snake.State()), (r, c))
      modifies snake, grid`food, grid.board, grid.snakeBoard
      ensures Valid()
      ensures snake.State() == Trim(old(snake.State()), food)
      ensures grid.food == if food then NthInterior(pick, grid.height) else old(grid.food)
      ensures forall r, c :: 0 <= r < grid.width + 2 && 0 <= c < grid.height + 2 ==>
        grid.snakeBoard[r, c] == TickOccupancy(old(snake.State()), food, (r, c))
    {
      if !food {
        FreeTail();
      }
      label Freed:
      Shrink(food);
      if food {
        grid.Food(pick);
      }
      assert unchanged@Freed(grid.snakeBoard);
    }

    /** One tick. Returns the combined grid before the tick, the action, the
        combined grid after it, and the reward. */
    method Step(action: int, pick: nat) returns (state: seq<seq<int>>, act: int, nextState: seq<seq<int>>, reward: int)
      requires Valid()
      requires pick < grid.width * grid.height
      requires InBounds(Moved(snake.head, action), grid.width, grid.height)
      modifies snake, grid, grid.board
      ensures Valid()
      ensures state == old(CurrentState())
      ensures act == action
      ensures nextState == CurrentState()
      ensures var s1 := Advance(old(snake.State()), action);
        var ate := FoodEaten(grid.width, grid.height, old(grid.food), Segments(s1));
        && snake.State() == Trim(s1, ate)
        && grid.food == (if ate then NthInterior(pick, grid.height) else old(grid.food))
        && (forall r, c :: 0 <= r < grid.width + 2 && 0 <= c < grid.height + 2 ==>
              grid.snakeBoard[r, c] == TickOccupancy(s1, ate, (r, c)))
        && reward == Reward(ate, Dead(grid.width, grid.height, grid.food, s1, ate))
    {
      ghost var food0 := grid.food;
      state := CurrentState();
      Move(action);
      ghost var s1 := snake.State();
      var food := FoodFound(Segments(s1));
      if food {
        reward := 1;
      } else {
        reward := 0;
      }
      Settle(food, pick);
      var dead := DeathFound(s1, food);
      if dead {
        reward := -1;
      }
      nextState := CurrentState();
      act := action;
    }
  }
}

=== FILE: geometry.dfy ===
/** Coordinates of the playing field and the rules that depend on them only:
    which cells are walls, what the static layer holds, how segments are
    counted per cell, and how a flat (row-major) index names a cell. */
module Geometry {

  /** A (row, column) coordinate, as the head and the body entries are. */
  type Cell = (int, int)

  /** The actions a snake step understands. */
  const UP := 0
  const DOWN := 1
  const LEFT := 2
  const RIGHT := 3

  /** Values of the static layer. */
  const EMPTY := 0
  const WALL := 1
  const FOOD := 3

  /** The grid holds (width + 2) rows and (height + 2) columns: a one-cell
      wall border around a width x height play space. */
  predicate InBounds(p: Cell, width: int, height: int)
  {
    0 <= p.0 < width + 2 && 0 <= p.1 < height + 2
  }

  predicate IsInterior(p: Cell, width: int, height: int)
  {
    1 <= p.0 <= width && 1 <= p.1 <= height
  }

  predicate IsWall(p: Cell, width: int, height: int)
  {
    InBounds(p, width, height) && !IsInterior(p, width, height)
  }

  /** Every cell of `cells` lies on the grid (so indexing the layers with it is safe). */
  predicate AllInBounds(cells: seq<Cell>, width: int, height: int)
  {
    forall q :: q in cells ==> InBounds(q, width, height)
  }

  /** The static layer with no food on it: walls on the border, empty inside. */
  function WallsOnly(width: int, height: int, p: Cell): int
  {
    if IsInterior(p, width, height) then EMPTY else WALL
  }

  /** The static layer when the food sits on `food`. */
  function StaticCell(width: int, height: int, food: Cell, p: Cell): (v: int)
    ensures p != food ==> v == WallsOnly(width, height, p)
    ensures v != WallsOnly(width, height, p) ==> v == FOOD && p == food
  {
    if !IsInterior(p, width, height) then WALL
    else if p == food then FOOD
    else EMPTY
  }

  /** With the food on an interior cell, the border is all wall and exactly
      one cell of the grid holds food. */
  lemma ExactlyOneFood(width: int, height: int, food: Cell)
    requires IsInterior(food, width, height)
    ensures StaticCell(width, height, food, food) == FOOD
    ensures forall p :: InBounds(p, width, height) && StaticCell(width, height, food, p) == FOOD ==> p == food
    ensures forall p :: IsWall(p, width, height) ==> StaticCell(width, height, food, p) == WALL
  {
  }

  /** The unit vector of an action; any other action value does not move. */
  function Delta(action: int): Cell
  {
    if action == UP then (-1, 0)
    else if action == DOWN then (1, 0)
    else if action == LEFT then (0, -1)
    else if action == RIGHT then (0, 1)
    else (0, 0)
  }

  function Abs(x: int): nat
  {
    if x < 0 then -x else x
  }

  /** Where a head at `p` goes under `action`: one cell away for the four
      actions, nowhere for any other value. */
  function Moved(p: Cell, action: int): (q: Cell)
    ensures UP <= action <= RIGHT ==> Abs(q.0 - p.0) + Abs(q.1 - p.1) == 1
    ensures !(UP <= action <= RIGHT) ==> q == p
    ensures action == UP ==> q == (p.0 - 1, p.1)
    ensures action == DOWN ==> q == (p.0 + 1, p.1)
    ensures action == LEFT ==> q == (p.0, p.1 - 1)
    ensures action == RIGHT ==> q == (p.0, p.1 + 1)
  {
    (p.0 + Delta(action).0, p.1 + Delta(action).1)
  }

  /** How many of `cells` sit on `p`: the value the occupancy layer holds there. */
  function Count(cells: seq<Cell>, p: Cell): nat
  {
    multiset(cells)[p]
  }

  /** A sequence without repeated cells puts at most one segment on any cell. */
  lemma {:induction false} DistinctCountsAtMostOne(cells: seq<Cell>)
    requires forall i, j :: 0 <= i < j < |cells| ==> cells[i] != cells[j]
    ensures forall p :: Count(cells, p) <= 1
  {
    if cells != [] {
      var rest := cells[1..];
      DistinctCountsAtMostOne(rest);
      assert cells == [cells[0]] + rest;
      assert cells[0] !in rest;
      forall p ensures Count(cells, p) <= 1 {
        assert multiset(cells) == multiset{cells[0]} + multiset(rest);
        assert multiset(rest)[cells[0]] == 0;
        assert Count(rest, p) <= 1;
      }
    }
  }

  /** Row-major flat index of `p` in a grid with `cols` columns, as a
      flattened numpy array numbers its cells. */
  function Flat(p: Cell, cols: int): int
  {
    p.0 * cols + p.1
  }

  /** The conversion of a flat index back to a cell as the game writes it:
      the row is the index divided by the FIRST dimension of the board, and
      the column is what is left. It inverts Flat only when that first
      dimension is the number of columns, that is, on square boards. */
  function FoodCell(idx: int, shape0: int): (p: Cell)
    requires shape0 > 0
    ensures p.0 * shape0 + p.1 == idx && 0 <= p.1 < shape0
  {
    var row := idx / shape0;
    (row, idx - shape0 * row)
  }

  /** Euclidean division undoes q * n + r for a remainder in range. */
  lemma DivModOf(q: int, r: int, n: int)
    requires n > 0 && 0 <= r < n
    ensures (q * n + r) / n == q && (q * n + r) % n == r
  {
    var k := q * n + r;
    var d, m := k / n, k % n;
    assert k == d * n + m;
    assert (d - q) * n == r - m;
    if d > q {
      assert (d - q) * n >= n by { MulAtLeast(d - q, n); }
      assert false;
    } else if d < q {
      assert (q - d) * n >= n by { MulAtLeast(q - d, n); }
      assert false;
    }
  }

  lemma MulAtLeast(a: int, n: int)
    requires a >= 1 && n > 0
    ensures a * n >= n
  {
  }

  /** On a grid with `n` columns whose first dimension is also `n`, the
      game's conversion recovers every cell from its flat index. */
  lemma FoodCellOfFlat(p: Cell, n: int)
    requires n > 0 && 0 <= p.1 < n
    ensures FoodCell(Flat(p, n), n) == p
  {
    DivModOf(p.0, p.1, n);
  }

  /** On a non-square board the conversion goes wrong: on a 1 x 2 play space
      (a 3 x 4 grid) the empty cell (1, 2) has flat index 6, and the game
      turns 6 into the wall cell (2, 0). */
  lemma NonSquareFoodLandsOnWall()
    ensures IsInterior((1, 2), 1, 2) && Flat((1, 2), 2 + 2) == 6
    ensures FoodCell(6, 1 + 2) == (2, 0) && IsWall((2, 0), 1, 2)
  {
  }

  /** The i-th interior cell in row-major order: the enumeration of the empty
      cells from which the food position is drawn. */
  function NthInterior(i: int, height: int): Cell
    requires height > 0
  {
    (1 + i / height, 1 + i % height)
  }

  /** Position of an interior cell in that enumeration. */
  function InteriorIndex(p: Cell, height: int): int
  {
    (p.0 - 1) * height + (p.1 - 1)
  }

  /** NthInterior is a bijection between 0 .. width*height-1 and the interior
      cells: each index names an interior cell, and every interior cell is
      named by exactly one index. */
  lemma NthInteriorRoundTrip(width: int, height: int)
    requires width > 0 && height > 0
    ensures forall i :: 0 <= i < width * height ==>
      IsInterior(NthInterior(i, height), width, height) && InteriorIndex(NthInterior(i, height), height) == i
    ensures forall p :: IsInterior(p, width, height) ==>
      0 <= InteriorIndex(p, height) < width * height && NthInterior(InteriorIndex(p, height), height) == p
  {
    forall i | 0 <= i < width * height
      ensures IsInterior(NthInterior(i, height), width, height) && InteriorIndex(NthInterior(i, height), height) == i
    {
      NthInteriorIsInterior(i, width, height);
    }
    forall p | IsInterior(p, width, height)
      ensures 0 <= InteriorIndex(p, height) < width * height && NthInterior(InteriorIndex(p, height), height) == p
    {
      DivModOf(p.0 - 1, p.1 - 1, height);
      assert InteriorIndex(p, height) < width * height by {
        assert InteriorIndex(p, height) <= (width - 1) * height + (height - 1);
        assert (width - 1) * height + height == width * height;
      }
      assert 0 <= InteriorIndex(p, height) by {
        assert (p.0 - 1) * height >= 0;
      }
    }
  }

  lemma NthInteriorIsInterior(i: int, width: int, height: int)
    requires width > 0 && height > 0 && 0 <= i < width * height
    ensures IsInterior(NthInterior(i, height), width, height)
    ensures InteriorIndex(NthInterior(i, height), height) == i
  {
  }
}
